=== FILE: README.md ===
# kfctl application bootstrap, modelled in Dafny

This project models the application-bootstrap core of the `kfctl` command
(`bootstrap/cmd/kfctl/cmd/root.go`). The core has four routines:

- `processResourceArg` reads the optional resource-scope argument (`all`,
  `k8s` or `platform`).
- `loadPlatform` resolves a platform name to an application handle. The
  names `none` and `minikube` use built-in backends. Any other name loads the
  plugin `<platform>app.so` from the directory named by `PLUGINS_ENVIRONMENT`
  and calls its `GetKfApp` constructor.
- `newKfApp` derives an application name and directory from the requested
  name. It expands `~` and checks the name against the DNS-1123-subdomain
  grammar. It then writes `APPNAME` and `APPDIR` into the options map and
  resolves the platform.
- `loadKfApp` identifies an existing application from the working directory.
  It loads the application's ksonnet app and reads and parses its descriptor.
  It then writes five options and resolves the platform.

Files:

- `wrappers.dfy` (`Wrappers`) has `Option`, `Result` and `Outcome`. An
  `Outcome` is the answer of a call outside the model: a value, or a failure
  with its cause.
- `gostrings.dfy` (`GoStrings`) models Go's `strings.Split` and
  `strings.Join`.
- `gopath.dfy` (`GoPath`) models Go's `path.Clean`, `Dir`, `Base` and the
  two-element `Join` on `/`-separated paths. `filepath` behaves the same
  when the separator is `/`. `Clean` is stated on the list of path elements:
  - empty and `.` elements are dropped;
  - `..` removes the previous ordinary element, vanishes at the root, and is
    kept at the front of a relative path.
- `slug.dfy` (`Slug`) holds the application-name grammar. It also models the
  check at root.go:115-117 as written. That regular expression is anchored
  at the end only, so `FindString` returns the longest suffix that is a slug.
  The check then compares that suffix with the whole name.
- `kfctl.dfy` (`KfCtl`) models root.go itself:
  - the options map is a class `Options` with a field
    `entries: map<OptKey, Value>`;
  - `NewKfApp` and `LoadKfApp` are methods that update this field in place;
  - `ProcessResourceArg` and `LoadPlatform` are functions;
  - the operating system and library calls come in as a `Host` value of
    outcomes: `os.Getwd`, `os.Getenv`, `homedir.Dir` and `homedir.Expand`,
    `plugin.Open` and `Lookup`, ksonnet's `app.Load`, `ioutil.ReadFile` and
    `yaml.Unmarshal`.

Errors are constructors of `KfCtl.Error`, one per distinct message (the two "unable to load
platform" sites share `PlatformLoadFailed`). Each
carries the values its message prints: the path, the platform, the symbol
name, the rejected name, or the underlying cause.

## Model

| member | source | states |
|---|---|---|
| `KfCtl.ProcessResourceArg` | bootstrap/cmd/kfctl/cmd/root.go:38-55 | No token gives ALL. Two or more tokens give NONE with an error listing exactly the tokens after the first. One token gives the scope whose name it is. Any other single token gives NONE with an error naming it. The error slot is set exactly when the scope is NONE. |
| `KfCtl.ScopeRoundTrip` | bootstrap/cmd/kfctl/cmd/root.go:42-54 | Each scope's own token reads back as that scope, without error. |
| `KfCtl.ExtraArgsIgnoreFirst` | bootstrap/cmd/kfctl/cmd/root.go:39-41 | With extra tokens, the result does not depend on the first token: the count is checked before any token is looked at. |
| `KfCtl.LoadPlatform` | bootstrap/cmd/kfctl/cmd/root.go:57-86 | `none` and `minikube` (and only they) give their built-in handle. Any other name opens `Join(PLUGINS_ENVIRONMENT, name+"app.so")`. An open failure names that path and the platform. A lookup failure names `GetKfApp` and the platform. Otherwise the result is the plugin's constructor. Every handle is built from the options it was given. |
| `KfCtl.BuiltinIgnoresHost` | bootstrap/cmd/kfctl/cmd/root.go:59-65 | For a built-in platform, the result is the same whatever the environment and the plugin loader answer: neither is consulted. |
| `KfCtl.PluginPath` | bootstrap/cmd/kfctl/cmd/root.go:71-72 | The plugin path is never empty. When `PLUGINS_ENVIRONMENT` is set, the path is absolute exactly when the variable is. When the variable is unset, the path is relative unless the platform name starts with `/`. |
| `KfCtl.PluginFileName` | bootstrap/cmd/kfctl/cmd/root.go:71-72 | For a platform name without `/`, the plugin path is `<platform>app.so` directly inside the cleaned plugin directory. Its last element is that file name. |
| `KfCtl.PluginInCleanDir` | bootstrap/cmd/kfctl/cmd/root.go:71-72 | In a clean plugin directory other than `.` and `/`, the plugin path is the directory, `/`, and `<platform>app.so`. |
| `KfCtl.AcmePath` | bootstrap/cmd/kfctl/cmd/root.go:71-72 | The plugin directory `/opt/ext` and platform `acme` give `/opt/ext/acmeapp.so`. |
| `KfCtl.AcmePluginPath` | bootstrap/cmd/kfctl/cmd/root.go:71-76 | With `PLUGINS_ENVIRONMENT=/opt/ext`, platform `acme` opens `/opt/ext/acmeapp.so`. An open failure is reported with exactly that path. |
| `KfCtl.ResolveHomeAsWritten` | bootstrap/cmd/kfctl/cmd/root.go:100-107 | The home lookup as written succeeds iff both `homedir.Dir` and `homedir.Expand` succeed. An Expand failure is reported with no cause. In every other case (success with the expanded home, or `HomeDirFailed` with `homedir.Dir`'s cause) it is the corrected lookup `ResolveHome`, so losing the Expand cause is the only difference. |
| `KfCtl.ExpandCauseLost` | bootstrap/cmd/kfctl/cmd/root.go:104-107 | As written, two Expand failures with different causes give the same error. |
| `KfCtl.ResolveHome` | bootstrap/cmd/kfctl/cmd/root.go:100-107 | The corrected lookup succeeds iff both calls succeed, with the expanded home. Each failure reports its own call's cause. |
| `KfCtl.ExpandCauseKept` | bootstrap/cmd/kfctl/cmd/root.go:104-107 | Corrected: Expand failures with different causes give different errors. |
| `KfCtl.Placement` | bootstrap/cmd/kfctl/cmd/root.go:89-113 | The derived name is the last element of the request and is never empty. The derivation fails exactly when the request's directory is `~` and the home lookup fails, and it then returns the home lookup's error. |
| `KfCtl.HomeRelativePlacement` | bootstrap/cmd/kfctl/cmd/root.go:99-109 | `~/e` names `e`, placed directly inside the cleaned home directory. |
| `KfCtl.BareNamePlacement` | bootstrap/cmd/kfctl/cmd/root.go:91-113 | A bare name `e` gives name `e` and directory `e` (relative). The working directory is never consulted. |
| `KfCtl.RequestInCleanDir` | bootstrap/cmd/kfctl/cmd/root.go:91-113 | A request `d/n`, with `d` clean and not `~` and `n` an ordinary element, gives name `n` and directory `Join(d, n)`, which is `n` directly inside `d`. |
| `KfCtl.PlacementIgnoresHost` | bootstrap/cmd/kfctl/cmd/root.go:110-113 | When the directory part is not `~`, nothing outside the program is consulted. |
| `KfCtl.CreatedDirNamesApp` | bootstrap/cmd/kfctl/cmd/root.go:108-120 | For an accepted name, the last element of the application directory is the application name. |
| `KfCtl.WrapPlatform` | bootstrap/cmd/kfctl/cmd/root.go:124-128 | A handle from `loadPlatform` passes through unchanged. An error is wrapped with the platform name and keeps the original error inside. It is an error exactly when the inner result is. |
| `KfCtl.NewKfApp` | bootstrap/cmd/kfctl/cmd/root.go:88-129 | A home-lookup failure is returned and the options are unchanged. A name outside the slug grammar gives an error naming it; the options are unchanged and the platform is not resolved. Otherwise exactly `APPNAME` and `APPDIR` are written, and the platform's result is returned, its error wrapped with the platform name. |
| `KfCtl.ConfigPath` | bootstrap/cmd/kfctl/cmd/root.go:138 | The descriptor path is `app.yaml` directly inside the cleaned application directory, and `app.yaml` is its last element. |
| `KfCtl.KsDir` | bootstrap/cmd/kfctl/cmd/root.go:141 | The ksonnet directory is `ks_app` directly inside the cleaned application directory, and `ks_app` is its last element. |
| `KfCtl.ReadApp` | bootstrap/cmd/kfctl/cmd/root.go:131-154 | On success, the directory is the working directory and the name is its last element. The ksonnet app is what `app.Load` gives for `<dir>/ks_app`, and the descriptor is what `yaml.Unmarshal` makes of `<dir>/app.yaml`. Every error is one of the four step errors. Each carries its step's cause: the load error names the application (`Base` of the working directory), and the read error names the descriptor path. |
| `KfCtl.ReadAppFailsAtFirstStep` | bootstrap/cmd/kfctl/cmd/root.go:132-154 | The steps run in a fixed order: working directory, ksonnet app, descriptor read, descriptor parse. The result is an error iff some step fails. Each error kind occurs iff its step is the first to fail, so a read failure and a parse failure are never confused. |
| `KfCtl.LoadKfApp` | bootstrap/cmd/kfctl/cmd/root.go:131-165 | A failing step is returned and the options are unchanged. Otherwise exactly PLATFORM (from the descriptor), APPNAME, APPDIR, KAPP and KSAPP are written. The platform's result is returned, its error wrapped with the descriptor's platform. |
| `KfCtl.EnteredChildKeepsName` | bootstrap/cmd/kfctl/cmd/root.go:132-136 | Entering a directory whose last element is `e`, from any working directory, gives a working directory whose last element is `e`. |
| `KfCtl.NewThenLoadSameName` | bootstrap/cmd/kfctl/cmd/root.go:108-136 | After creating an application, loading it from inside its directory gives back its name. This holds whether the directory is absolute, or relative and so reported by `os.Getwd` joined onto the original working directory. For an absolute directory, the loaded directory is the created one. |
| `Slug.IsSlug` | bootstrap/cmd/kfctl/cmd/root.go:115 | A slug is not empty, and starts and ends with a character of `[a-z0-9]`. |
| `Slug.FindFrom` | bootstrap/cmd/kfctl/cmd/root.go:115-116 | The match found from a position on is empty or a slug that is a suffix of the input. It is the leftmost one: no suffix starting earlier (from that position) is a slug. |
| `Slug.FindSlug` | bootstrap/cmd/kfctl/cmd/root.go:115-116 | `FindString` of the name expression is the longest suffix of the name that is a slug. It is `""` only when no suffix is a slug. |
| `Slug.WholeMatch` | bootstrap/cmd/kfctl/cmd/root.go:115-117 | The comparison accepts exactly the slugs, plus the empty string (which `Base` never yields). |
| `Slug.SlugShape` | bootstrap/cmd/kfctl/cmd/root.go:115 | A slug is a single ordinary path element: not empty, not `.` or `..`, no `/`. |
| `Slug.MyAppV1IsSlug` | bootstrap/cmd/kfctl/cmd/root.go:115-117 | `my-app.v1` is accepted. |
| `Slug.MyAppUnderscoreRejected` | bootstrap/cmd/kfctl/cmd/root.go:115-120 | `FindString` on `My_App` finds only `pp`, so `My_App` is rejected. |
| `GoPath.Clean` | bootstrap/cmd/kfctl/cmd/root.go:109-112 | A cleaned path is never empty. It is rooted exactly when the input is. |
| `GoPath.Join` | bootstrap/cmd/kfctl/cmd/root.go:109-112 | A joined path is empty exactly when both parts are. When the first part is non-empty, the result is rooted exactly when that part is. |
| `GoPath.Dir` | bootstrap/cmd/kfctl/cmd/root.go:91-92 | `path.Dir` never returns `""`, so the working-directory branch at lines 92-97 cannot run. |
| `GoPath.Base` | bootstrap/cmd/kfctl/cmd/root.go:108-111 | `path.Base` never returns `""`. |
| `GoPath.JoinOrdinary` | bootstrap/cmd/kfctl/cmd/root.go:109-112 | Joining a directory with one ordinary element gives that element directly inside the cleaned directory. |
| `GoPath.BaseOfChild` | bootstrap/cmd/kfctl/cmd/root.go:136 | The last element of such a child path is the element itself. |
| `GoPath.BaseOfJoinChild` | bootstrap/cmd/kfctl/cmd/root.go:132-136 | A child path joined onto any working directory still has that element as its last element. |
| `GoPath.BareName` | bootstrap/cmd/kfctl/cmd/root.go:91-112 | A name without a directory part has directory `.` and joins back to itself. |
| `GoPath.HomeShorthand` | bootstrap/cmd/kfctl/cmd/root.go:99-108 | `~/e` splits into directory `~` and base `e`. |
| `GoPath.CleanChild` | bootstrap/cmd/kfctl/cmd/root.go:72 | An ordinary element inside a clean directory gives a clean path. |
| `GoPath.CleanTrailingSlash` | bootstrap/cmd/kfctl/cmd/root.go:91 | Cleaning a non-empty path with a trailing `/` gives the same result as cleaning the path without it. So the `path.Dir` of `d/n` is `Clean(d)`. |
| `GoPath.SplitHalves` | bootstrap/cmd/kfctl/cmd/root.go:91 | The directory half followed by the file half is the path, and the file half has no `/`. |

## Left out

- The cobra command, `Execute`, `init` and `initConfig` (root.go:167-189) are the command-line harness and process exit.
- `NewKfApp`: when `homedir.Expand` fails, it reports the corrected `HomeExpandFailed(Some(cause))`, where root.go:106 reports a nil cause (see Findings; the as-written lookup is `ResolveHomeAsWritten`).
- `Placement`: it uses the corrected home lookup `ResolveHome`, so an Expand failure carries its cause, where root.go:106 reports nil (see Findings).
- The log calls at root.go:137 and 139 are left out.
- `afero.NewOsFs` (root.go:140) is not modelled separately. It is part of what the `ksLoad` outcome answers.
- The `.(string)` type assertions at root.go:58, 90 and 123 panic in Go when the key is missing or not a string. The model turns each into a `requires`. For `NewKfApp`, PLATFORM is required only when the name passes validation, which is the only path that reaches line 123.
- The assertion of the looked-up symbol to the constructor type (root.go:82) is not checked. In Go a symbol of the wrong type panics. The model treats a successful lookup as a constructor, as the code assumes, and has no handled error for a symbol of the wrong type.
- The commented-out "unknown platform" error (root.go:69, 84) is not part of the running code, so it is not modelled.
- Go's plugin loader keeps every opened plugin resident in the process. Each invocation calls `loadPlatform` once, so this registry is not modelled.
- The built-in backends (`ksapp.GetKfApp`, `minikube.GetKfApp`) are opaque. Their handles record only the options they were given.
- Error messages are constructors carrying the printed values, not formatted strings.
- `KfConfigFile` and `KsName` are defined in the `apps` and `ksapp/v1alpha1` packages, which are not part of this model. They are taken as `app.yaml` and `ks_app`. No stated property depends on these values.
- `NewThenLoadSameName` covers the name, and the directory only for absolute placements (for a relative one, `os.Getwd` reports a different, absolute string). The change of working directory between the two commands is a parameter. The platform that `loadKfApp` reads comes from a descriptor written by the backend, outside root.go.
- A request with no directory part never uses the working directory, although lines 92-97 are written to do so: `path.Dir` returns `"."`, so a bare name stays a relative directory. The model follows the code (`BareNamePlacement`, `GoPath.Dir`).

## Findings

| source | as written | input that shows it | evidently intended | confidence | as-written member | corrected member |
|---|---|---|---|---|---|---|
| bootstrap/cmd/kfctl/cmd/root.go:104-107 | When `homedir.Expand` fails, the error is built from `homeErr`, which is always nil at that point. The message reads "could not expand home directory <nil>" and the cause is lost. | A request `~/app` where `homedir.Dir` succeeds and `homedir.Expand` fails with any error | Report `expandedErr` | high; not executed | `KfCtl.ResolveHomeAsWritten` (with `KfCtl.ExpandCauseLost`) | `KfCtl.ResolveHome` (with `KfCtl.ExpandCauseKept`), used by `Placement` and `NewKfApp` |

=== FILE: gopath.dfy ===
/**
 * Go's slash-separated path functions (package "path", and "path/filepath"
 * on a system whose separator is '/'), as the bootstrap code uses them:
 * Clean, Dir, Base and the two-element Join.
 *
 * Clean is stated on the list of path elements rather than on Go's byte
 * buffer: empty and "." elements disappear, ".." removes the previous
 * ordinary element, vanishes at the root of a rooted path and is kept at the
 * front of a relative one; an empty result becomes ".".
 */
module GoPath {

  import opened GoStrings

  /** An element that Clean keeps as it is: not empty, not "." or "..", no separator. */
  predicate Ordinary(e: string)
  {
    e != "" && e != "." && e != ".." && '/' !in e
  }

  /** What Clean keeps of the elements it has scanned: no empty or "." element, no separator. */
  predicate Tidy(kept: seq<string>)
  {
    forall i :: 0 <= i < |kept| ==> kept[i] != "" && kept[i] != "." && '/' !in kept[i]
  }

  /** The effect of one path element on the elements Clean has kept so far. */
  function Step(kept: seq<string>, rooted: bool, e: string): seq<string>
  {
    if e == "" || e == "." then kept
    else if e == ".." then
      if |kept| > 0 && kept[|kept| - 1] != ".." then kept[..|kept| - 1]
      else if rooted then kept
      else kept + [".."]
    else kept + [e]
  }

  function Reduce(kept: seq<string>, rooted: bool, elems: seq<string>): seq<string>
    decreases |elems|
  {
    if elems == [] then kept
    else Reduce(Step(kept, rooted, elems[0]), rooted, elems[1..])
  }

  lemma {:induction false} ReduceAppend(kept: seq<string>, rooted: bool, xs: seq<string>, ys: seq<string>)
    ensures Reduce(kept, rooted, xs + ys) == Reduce(Reduce(kept, rooted, xs), rooted, ys)
    decreases |xs|
  {
    if xs != [] {
      assert (xs + ys)[1..] == xs[1..] + ys;
      ReduceAppend(Step(kept, rooted, xs[0]), rooted, xs[1..], ys);
    } else {
      assert xs + ys == ys;
    }
  }

  lemma {:induction false} ReduceTidy(kept: seq<string>, rooted: bool, elems: seq<string>)
    requires Tidy(kept)
    requires forall i :: 0 <= i < |elems| ==> '/' !in elems[i]
    ensures Tidy(Reduce(kept, rooted, elems))
    decreases |elems|
  {
    if elems != [] {
      ReduceTidy(Step(kept, rooted, elems[0]), rooted, elems[1..]);
    }
  }

  /** The kept elements of a non-empty path, and whether it is rooted. */
  function Elements(p: string): seq<string>
    requires p != ""
  {
    Reduce([], p[0] == '/', Split(p, '/'))
  }

  function Render(rooted: bool, kept: seq<string>): string
  {
    var body := (if rooted then "/" else "") + Concat(kept, '/');
    if body == "" then "." else body
  }

  /**
   * path.Clean: the shortest path naming the same file by purely lexical
   * processing. It is never empty and is rooted exactly when its input is.
   */
  function Clean(p: string): (r: string)
    ensures r != ""
    ensures r[0] == '/' <==> p != "" && p[0] == '/'
  {
    if p == "" then "."
    else
      var kept := Elements(p);
      CleanTidy(p);
      if kept == [] then Render(p[0] == '/', kept)
      else
        ConcatTidy(kept);
        Render(p[0] == '/', kept)
  }

  /** Everything up to and including the last separator (the dir half of path.Split). */
  function DirPart(p: string): string
  {
    if p == [] then []
    else if p[|p| - 1] == '/' then p
    else DirPart(p[..|p| - 1])
  }

  /** Everything after the last separator (the file half of path.Split). */
  function FilePart(p: string): string
  {
    if p == [] then []
    else if p[|p| - 1] == '/' then []
    else FilePart(p[..|p| - 1]) + [p[|p| - 1]]
  }

  function TrimTrailingSlashes(p: string): (r: string)
    ensures r == [] || r[|r| - 1] != '/'
  {
    if p != [] && p[|p| - 1] == '/' then TrimTrailingSlashes(p[..|p| - 1]) else p
  }

  /** path.Dir: all but the last element, cleaned. */
  function Dir(p: string): (r: string)
    ensures r != ""
  {
    Clean(DirPart(p))
  }

  /** path.Base: the last element, trailing slashes ignored; "." for "" and "/" for only slashes. */
  function Base(p: string): (r: string)
    ensures r != ""
  {
    if p == "" then "."
    else
      var q := TrimTrailingSlashes(p);
      if q == "" then "/" else FilePart(q)
  }

  /** path.Join(a, b): the non-empty elements joined by a separator, then cleaned. */
  function Join(a: string, b: string): (r: string)
    ensures r == "" <==> a == "" && b == ""
    ensures a != "" ==> (r[0] == '/' <==> a[0] == '/')
  {
    if a == "" && b == "" then ""
    else if a == "" then Clean(b)
    else Clean(a + "/" + b)
  }

  /** The path of element e directly inside the clean directory c. */
  function Child(c: string, e: string): string
  {
    if c == "." then e else if c == "/" then "/" + e else c + "/" + e
  }

  /** path.Split's promise: the dir half followed by the file half is the path. */
  lemma {:induction false} SplitHalves(p: string)
    ensures DirPart(p) + FilePart(p) == p
    ensures '/' !in FilePart(p)
  {
    if p != [] && p[|p| - 1] != '/' {
      SplitHalves(p[..|p| - 1]);
      assert p == p[..|p| - 1] + [p[|p| - 1]];
    }
  }

  lemma {:induction false} HalvesOfChild(x: string, e: string)
    requires '/' !in e
    ensures FilePart(x + "/" + e) == e
    ensures DirPart(x + "/" + e) == x + "/"
    ensures FilePart(e) == e && DirPart(e) == ""
  {
    if e != [] {
      var e' := e[..|e| - 1];
      assert '/' !in e';
      HalvesOfChild(x, e');
      assert (x + "/" + e)[..|x + "/" + e| - 1] == x + "/" + e';
      assert e'[..] + [e[|e| - 1]] == e;
    } else {
      assert x + "/" + e == x + "/";
    }
  }

  lemma CleanTidy(p: string)
    requires p != ""
    ensures Tidy(Elements(p))
  {
    ReduceTidy([], p[0] == '/', Split(p, '/'));
  }

  lemma ElementsOfChild(d: string, e: string)
    requires d != "" && Ordinary(e)
    ensures (d + "/" + e)[0] == d[0]
    ensures Elements(d + "/" + e) == Elements(d) + [e]
  {
    SplitWithoutSep(e, '/');
    SplitAround(d, '/', e);
    ReduceAppend([], d[0] == '/', Split(d, '/'), [e]);
  }

  /** A trailing separator does not change a non-empty path once it is cleaned. */
  lemma CleanTrailingSlash(d: string)
    requires d != ""
    ensures Clean(d + "/") == Clean(d)
  {
    SplitAround(d, '/', "");
    assert d + "/" == d + ['/'] + "";
    ReduceAppend([], d[0] == '/', Split(d, '/'), [""]);
    assert Elements(d + "/") == Elements(d);
  }

  /** The elements Clean keeps, joined, never read as "", "." or "/". */
  lemma ConcatTidy(kept: seq<string>)
    requires Tidy(kept) && kept != []
    ensures var c := Concat(kept, '/'); c != "" && c != "." && c != "/" && c[0] != '/'
  {
    var c := Concat(kept, '/');
    if |kept| == 1 {
      assert c == kept[0];
    } else {
      assert c == kept[0] + ['/'] + Concat(kept[1..], '/');
      assert |c| >= 2;
      assert c[0] == kept[0][0];
    }
  }

  lemma RenderSnoc(rooted: bool, kept: seq<string>, e: string)
    requires Tidy(kept) && Ordinary(e)
    ensures Render(rooted, kept + [e]) == Child(Render(rooted, kept), e)
  {
    ConcatSnoc(kept, '/', e);
    var prefix := if rooted then "/" else "";
    if kept == [] {
      assert Concat(kept, '/') == "";
      assert Render(rooted, kept) == if rooted then "/" else ".";
      assert Render(rooted, kept + [e]) == prefix + e;
    } else {
      var c := Concat(kept, '/');
      ConcatTidy(kept);
      assert Render(rooted, kept) == prefix + c;
      assert prefix + c != "." && prefix + c != "/";
      assert Render(rooted, kept + [e]) == prefix + (c + ['/'] + e);
      assert prefix + (c + ['/'] + e) == (prefix + c) + "/" + e;
    }
  }

  /**
   * Joining a directory with one ordinary element names that element directly
   * inside the cleaned directory.
   */
  lemma JoinOrdinary(d: string, e: string)
    requires Ordinary(e)
    ensures Join(d, e) == Child(Clean(d), e)
  {
    if d == "" {
      SplitWithoutSep(e, '/');
      assert Elements(e) == Reduce([], false, [e]) == [e];
    } else {
      ElementsOfChild(d, e);
      CleanTidy(d);
      RenderSnoc(d[0] == '/', Elements(d), e);
    }
  }

  /** The last element of a child path is the element itself. */
  lemma BaseOfChild(c: string, e: string)
    requires Ordinary(e)
    ensures Base(Child(c, e)) == e
  {
    var p := Child(c, e);
    if c == "." {
      HalvesOfChild("", e);
    } else if c == "/" {
      HalvesOfChild("", e);
      assert p == "" + "/" + e;
    } else {
      HalvesOfChild(c, e);
    }
    assert TrimTrailingSlashes(p) == p;
  }

  /** A name without a directory part has directory "." and joins back to itself. */
  lemma BareName(e: string)
    requires Ordinary(e)
    ensures Dir(e) == "." && Base(e) == e
    ensures Join(Dir(e), e) == e
  {
    HalvesOfChild("", e);
    BaseOfChild(".", e);
    SplitWithoutSep(".", '/');
    assert Clean(".") == Render(false, Reduce([], false, ["."])) == ".";
    JoinOrdinary(".", e);
  }

  /** "~/e" splits into the home shorthand "~" and the element e. */
  lemma HomeShorthand(e: string)
    requires Ordinary(e)
    ensures Dir("~/" + e) == "~" && Base("~/" + e) == e
  {
    assert "~/" + e == "~" + "/" + e;
    HalvesOfChild("~", e);
    BaseOfChild("~", e);
    CleanTrailingSlash("~");
    SplitWithoutSep("~", '/');
    assert Elements("~") == ["~"];
  }

  lemma CleanRoot()
    ensures Clean("/") == "/"
  {
    SplitAround("", '/', "");
    assert "" + ['/'] + "" == "/";
    assert Split("/", '/') == ["", ""];
    assert Elements("/") == [];
  }

  /** An ordinary element placed in a clean directory gives a clean path. */
  lemma CleanChild(c: string, e: string)
    requires Clean(c) == c && Ordinary(e)
    ensures Clean(Child(c, e)) == Child(c, e)
  {
    if c == "." {
      JoinOrdinary("", e);
      assert Clean("") == ".";
    } else if c == "/" {
      JoinOrdinary("", e);
      SplitWithoutSep(e, '/');
      SplitAround("", '/', e);
      assert "" + ['/'] + e == "/" + e;
      assert ["", e][1..] == [e];
      assert Reduce([], true, ["", e]) == Reduce([], true, [e]) == Reduce([e], true, []) == [e];
      assert Elements("/" + e) == [e];
      ConcatSnoc([], '/', e);
    } else {
      JoinOrdinary(c, e);
    }
  }

  /** The last element of a cleaned path that ends in an ordinary element is that element. */
  lemma BaseOfCleanedChild(p: string, e: string)
    requires Ordinary(e)
    ensures Base(Clean(p + "/" + e)) == e
    ensures Base(Clean(e)) == e
  {
    JoinOrdinary("", e);
    BaseOfChild(".", e);
    if p == "" {
      assert p + "/" + e == "/" + e == Child("/", e);
      CleanRoot();
      CleanChild("/", e);
      BaseOfChild("/", e);
    } else {
      JoinOrdinary(p, e);
      BaseOfChild(Clean(p), e);
    }
  }

  /**
   * Joining a directory with a child path keeps the child's element last:
   * the working directory entered through a relative path ends in that
   * path's last element.
   */
  lemma BaseOfJoinChild(cwd: string, c: string, e: string)
    requires Ordinary(e)
    ensures Base(Join(cwd, Child(c, e))) == e
  {
    var x := Child(c, e);
    if c == "." {
      BaseOfCleanedChild(cwd, e);
    } else if c == "/" {
      if cwd == "" {
        BaseOfCleanedChild("", e);
      } else {
        assert cwd + "/" + x == (cwd + "/") + "/" + e;
        BaseOfCleanedChild(cwd + "/", e);
      }
    } else {
      if cwd == "" {
        BaseOfCleanedChild(c, e);
      } else {
        assert cwd + "/" + x == (cwd + "/" + c) + "/" + e;
        BaseOfCleanedChild(cwd + "/" + c, e);
      }
    }
  }
}

=== FILE: gostrings.dfy ===
/** The two functions of Go's "strings" package that the model needs: Split and Join. */
module GoStrings {

  /** strings.Split(s, string(sep)): the pieces between separators, never none. */
  function Split(s: string, sep: char): (parts: seq<string>)
    ensures |parts| >= 1
    ensures forall i :: 0 <= i < |parts| ==> sep !in parts[i]
  {
    if s == [] then [""]
    else
      var rest := Split(s[1..], sep);
      if s[0] == sep then [""] + rest
      else [[s[0]] + rest[0]] + rest[1..]
  }

  /** strings.Join(parts, string(sep)). */
  function Concat(parts: seq<string>, sep: char): string
  {
    if |parts| == 0 then ""
    else if |parts| == 1 then parts[0]
    else parts[0] + [sep] + Concat(parts[1..], sep)
  }

  lemma {:induction false} SplitAround(a: string, sep: char, b: string)
    ensures Split(a + [sep] + b, sep) == Split(a, sep) + Split(b, sep)
  {
    if a == [] {
      assert a + [sep] + b == [sep] + b;
      assert ([sep] + b)[1..] == b;
    } else {
      assert (a + [sep] + b)[1..] == a[1..] + [sep] + b;
      SplitAround(a[1..], sep, b);
    }
  }

  lemma {:induction false} SplitWithoutSep(s: string, sep: char)
    requires sep !in s
    ensures Split(s, sep) == [s]
  {
    if s != [] {
      assert sep !in s[1..];
      SplitWithoutSep(s[1..], sep);
      assert [s[0]] + s[1..] == s;
    }
  }

  lemma {:induction false} ConcatSnoc(parts: seq<string>, sep: char, last: string)
    ensures Concat(parts + [last], sep) == if parts == [] then last else Concat(parts, sep) + [sep] + last
  {
    if |parts| > 1 {
      assert (parts + [last])[1..] == parts[1..] + [last];
      ConcatSnoc(parts[1..], sep, last);
    } else if |parts| == 1 {
      assert parts + [last] == [parts[0], last];
      assert [parts[0], last][1..] == [last];
    }
  }
}

=== FILE: kfctl.dfy ===
/**
 * The application bootstrap of the kfctl command: parsing the resource-scope
 * argument, resolving a platform name to an application handle (a built-in
 * backend or a plugin loaded from disk), creating a new application from a
 * requested name, and loading an existing application from the working
 * directory.
 *
 * Everything the Go code asks of the operating system or of a library
 * (os.Getwd, os.Getenv, the home-directory lookups, plugin.Open and Lookup,
 * ksonnet's app.Load, ioutil.ReadFile, yaml.Unmarshal) is an outcome taken
 * from a Host value.
 */
module KfCtl {

  import opened Wrappers
  import GoPath
  import Slug

  // ---------------------------------------------------------------------------
  // Data model
  // ---------------------------------------------------------------------------

  /** kftypes.ResourceEnum: the scope a command acts on. */
  datatype Resource = NONE | ALL | K8S | PLATFORM

  /** The command-line token of each scope. */
  function ScopeName(r: Resource): string
    requires r != NONE
  {
    if r == ALL then "all" else if r == K8S then "k8s" else "platform"
  }

  /** The errors the bootstrap returns, one per failing step. */
  datatype Error =
    | ExtraArgs(extra: seq<string>)
    | UnknownArg(arg: string)
    | PluginOpenFailed(path: string, platform: string, cause: string)
    | SymbolNotFound(symbol: string, platform: string, cause: string)
    | CwdFailed(cause: string)
    | HomeDirFailed(cause: string)
    | HomeExpandFailed(reported: Option<string>)
    | InvalidName(name: string)
    | PlatformLoadFailed(platform: string, inner: Error)
    | KsAppLoadFailed(appName: string, cause: string)
    | DescriptorReadFailed(path: string, cause: string)
    | DescriptorParseFailed(cause: string)

  /** A ksonnet application as app.Load returns it; opaque here. */
  datatype KsonnetApp = KsonnetApp(id: nat)

  /** The persisted application descriptor (kstypes.KsApp): its platform and other metadata. */
  datatype KsApp = KsApp(platform: string, metadata: map<string, string>)

  /**
   * The keys of the options map that the bootstrap reads or writes; Other
   * stands for the caller's own keys, whose names are never the strings of the
   * five known keys (in Go the map is keyed by those strings, so such a name
   * would be the same entry).
   */
  datatype OptKey = Platform | AppName | AppDir | KApp | KsAppKey | Other(name: string)

  /** The values the options map holds. */
  datatype Value = Text(s: string) | KsonnetHandle(kApp: KsonnetApp) | Descriptor(ksApp: KsApp)

  type Opts = map<OptKey, Value>

  /** The exported constructor a plugin provides, identified opaquely. */
  datatype Symbol = Symbol(id: nat)

  /** An opened plugin: the outcome of looking up each symbol name in it. */
  datatype Plugin = Plugin(lookup: string -> Outcome<Symbol>)

  /**
   * The application handle: one of the two built-in backends or the
   * constructor found in a plugin, each built from the options map it was
   * given.
   */
  datatype KfApp =
    | NoneApp(options: Opts)
    | MinikubeApp(options: Opts)
    | PluginApp(ctor: Symbol, options: Opts)

  /** What the operating system and the libraries answer during one invocation. */
  datatype Host = Host(
    getwd: Outcome<string>,
    homeDir: Outcome<string>,
    expand: string -> Outcome<string>,
    getenv: string -> string,
    open: string -> Outcome<Plugin>,
    ksLoad: string -> Outcome<KsonnetApp>,
    readFile: string -> Outcome<string>,
    unmarshal: string -> Outcome<KsApp>)

  /** The options map, which newKfApp and loadKfApp update in place for their caller. */
  class Options {
    var entries: Opts

    constructor (initial: Opts)
      ensures entries == initial
    {
      entries := initial;
    }
  }

  predicate HasText(o: Opts, k: OptKey)
  {
    k in o && o[k].Text?
  }

  function PlatformOf(o: Opts): string
    requires HasText(o, Platform)
  {
    o[Platform].s
  }

  const PluginsEnv := "PLUGINS_ENVIRONMENT"
  const PluginSuffix := "app.so"
  const SymName := "GetKfApp"
  /** kftypes.KfConfigFile: the descriptor's file name inside the application directory. */
  const KfConfigFile := "app.yaml"
  /** kstypes.KsName: the ksonnet application's directory inside the application directory. */
  const KsName := "ks_app"

  predicate IsBuiltin(platform: string)
  {
    platform == "none" || platform == "minikube"
  }

  // ---------------------------------------------------------------------------
  // processResourceArg
  // ---------------------------------------------------------------------------

  /**
   * Zero or one scope token to a scope; the error slot is set exactly when the
   * scope is NONE.
   */
  function ProcessResourceArg(args: seq<string>): (out: (Resource, Option<Error>))
    ensures out.1.Some? <==> out.0 == NONE
    ensures |args| == 0 ==> out == (ALL, None)
    ensures |args| > 1 ==> out.1 == Some(ExtraArgs(args[1..]))
    ensures |args| == 1 && out.1.None? ==> ScopeName(out.0) == args[0]
    ensures |args| == 1 && out.1.Some? ==>
      out.1 == Some(UnknownArg(args[0])) && forall r: Resource :: r != NONE ==> ScopeName(r) != args[0]
  {
    if |args| > 1 then (NONE, Some(ExtraArgs(args[1..])))
    else if |args| == 0 then (ALL, None)
    else if args[0] == "all" then (ALL, None)
    else if args[0] == "k8s" then (K8S, None)
    else if args[0] == "platform" then (PLATFORM, None)
    else (NONE, Some(UnknownArg(args[0])))
  }

  /** Every scope is read back from its own token. */
  lemma ScopeRoundTrip(r: Resource)
    requires r != NONE
    ensures ProcessResourceArg([ScopeName(r)]) == (r, None)
  {
  }

  /** Extra tokens are refused before any token is looked at. */
  lemma ExtraArgsIgnoreFirst(first: string, other: string, rest: seq<string>)
    requires |rest| > 0
    ensures ProcessResourceArg([first] + rest) == ProcessResourceArg([other] + rest)
  {
  }

  // ---------------------------------------------------------------------------
  // loadPlatform
  // ---------------------------------------------------------------------------

  /**
   * Where a plugin for the platform is looked for. It is never empty; it is
   * absolute exactly when PLUGINS_ENVIRONMENT is, and when the variable is
   * unset (Getenv gives "") the file is looked up relative to the working
   * directory unless the platform name itself starts with '/'.
   */
  function PluginPath(pluginDir: string, platform: string): (r: string)
    ensures r != ""
    ensures pluginDir != "" ==> (r[0] == '/' <==> pluginDir[0] == '/')
    ensures pluginDir == "" ==> (r[0] == '/' <==> platform != "" && platform[0] == '/')
  {
    GoPath.Join(pluginDir, platform + PluginSuffix)
  }

  /**
   * The handle for the platform named in the options: a built-in for "none"
   * and "minikube", otherwise the GetKfApp constructor of the plugin
   * <platform>app.so in the directory named by PLUGINS_ENVIRONMENT.
   */
  function LoadPlatform(options: Opts, host: Host): (r: Result<KfApp, Error>)
    requires HasText(options, Platform)
    ensures r.Ok? ==> r.value.options == options
    ensures r == Ok(NoneApp(options)) <==> PlatformOf(options) == "none"
    ensures r == Ok(MinikubeApp(options)) <==> PlatformOf(options) == "minikube"
    ensures var p := PlatformOf(options);
      var path := PluginPath(host.getenv(PluginsEnv), p);
      !IsBuiltin(p) ==>
        match host.open(path)
        case Failed(c) => r == Err(PluginOpenFailed(path, p, c))
        case Done(plugin) =>
          match plugin.lookup(SymName)
          case Failed(c) => r == Err(SymbolNotFound(SymName, p, c))
          case Done(sym) => r == Ok(PluginApp(sym, options))
  {
    var platform := PlatformOf(options);
    if platform == "none" then Ok(NoneApp(options))
    else if platform == "minikube" then Ok(MinikubeApp(options))
    else
      var pluginDir := host.getenv(PluginsEnv);
      var pluginPath := PluginPath(pluginDir, platform);
      match host.open(pluginPath)
      case Failed(c) => Err(PluginOpenFailed(pluginPath, platform, c))
      case Done(plugin) =>
        match plugin.lookup(SymName)
        case Failed(c) => Err(SymbolNotFound(SymName, platform, c))
        case Done(sym) => Ok(PluginApp(sym, options))
  }

  /** A built-in platform never consults the environment or the plugin loader. */
  lemma BuiltinIgnoresHost(options: Opts, h1: Host, h2: Host)
    requires HasText(options, Platform) && IsBuiltin(PlatformOf(options))
    ensures LoadPlatform(options, h1) == LoadPlatform(options, h2)
  {
  }

  /** For a platform name without '/', the plugin file is <platform>app.so directly inside the cleaned plugin directory. */
  lemma PluginFileName(pluginDir: string, platform: string)
    requires '/' !in platform
    ensures PluginPath(pluginDir, platform) == GoPath.Child(GoPath.Clean(pluginDir), platform + "app.so")
    ensures GoPath.Base(PluginPath(pluginDir, platform)) == platform + "app.so"
  {
    var file := platform + PluginSuffix;
    assert '/' !in file by {
      forall k | 0 <= k < |file| ensures file[k] != '/' {
        if k < |platform| { assert file[k] == platform[k]; } else { assert file[k] == PluginSuffix[k - |platform|]; }
      }
    }
    assert |file| >= 6;
    GoPath.JoinOrdinary(pluginDir, file);
    GoPath.BaseOfChild(GoPath.Clean(pluginDir), file);
  }

  /** In a clean plugin directory other than "." and "/", the plugin path is the directory, '/', and the file name. */
  lemma PluginInCleanDir(dir: string, platform: string)
    requires GoPath.Clean(dir) == dir && dir != "." && dir != "/" && '/' !in platform
    ensures PluginPath(dir, platform) == dir + "/" + platform + "app.so"
  {
    PluginFileName(dir, platform);
  }

  lemma OptExtIsClean()
    ensures GoPath.Clean("/opt/ext") == "/opt/ext"
  {
    var opt, ext := "opt", "ext";
    GoPath.CleanRoot();
    GoPath.CleanChild("/", opt);
    assert GoPath.Child("/", opt) == "/opt";
    GoPath.CleanChild("/opt", ext);
    assert GoPath.Child("/opt", ext) == "/opt/ext";
  }

  /** The plugin directory /opt/ext and platform acme give /opt/ext/acmeapp.so. */
  lemma AcmePath()
    ensures PluginPath("/opt/ext", "acme") == "/opt/ext/acmeapp.so"
  {
    assert "/opt/ext" + "/" + "acme" + "app.so" == "/opt/ext/acmeapp.so";
    OptExtIsClean();
    PluginInCleanDir("/opt/ext", "acme");
  }

  /** With PLUGINS_ENVIRONMENT=/opt/ext, platform "acme" opens /opt/ext/acmeapp.so and a failure names that path. */
  lemma AcmePluginPath(options: Opts, host: Host)
    requires HasText(options, Platform) && PlatformOf(options) == "acme"
    requires host.getenv(PluginsEnv) == "/opt/ext"
    requires host.open("/opt/ext/acmeapp.so").Failed?
    ensures LoadPlatform(options, host) == Err(PluginOpenFailed("/opt/ext/acmeapp.so", "acme", host.open("/opt/ext/acmeapp.so").cause))
  {
    AcmePath();
    assert !IsBuiltin("acme");
  }

  // ---------------------------------------------------------------------------
  // newKfApp
  // ---------------------------------------------------------------------------

  /**
   * The home-directory lookup of newKfApp as written: when homedir.Expand
   * fails, the error reports homeErr, which is nil on that path, so the
   * cause of the failure is dropped.
   */
  function ResolveHomeAsWritten(host: Host): (r: Result<string, Error>)
    ensures r.Ok? <==> host.homeDir.Done? && host.expand(host.homeDir.value).Done?
    ensures host.homeDir.Done? && r.Err? ==> r.error == HomeExpandFailed(None)
    ensures !(host.homeDir.Done? && host.expand(host.homeDir.value).Failed?) ==> r == ResolveHome(host)
  {
    match host.homeDir
    case Failed(c) => Err(HomeDirFailed(c))
    case Done(home) =>
      match host.expand(home)
      case Failed(_) => Err(HomeExpandFailed(None))
      case Done(expanded) => Ok(expanded)
  }

  /** Two different Expand failures are indistinguishable in the as-written error. */
  lemma ExpandCauseLost(home: string, c1: string, c2: string)
    ensures var h1 := Host(Done("h"), Done(home), _ => Failed(c1), _ => "", _ => Failed(""), _ => Failed(""), _ => Failed(""), _ => Failed(""));
      var h2 := h1.(expand := _ => Failed(c2));
      ResolveHomeAsWritten(h1) == ResolveHomeAsWritten(h2) == Err(HomeExpandFailed(None))
  {
  }

  /**
   * The home-directory lookup of newKfApp with the error it evidently means:
   * a failure of either lookup reports that lookup's own cause.
   */
  function ResolveHome(host: Host): (r: Result<string, Error>)
    ensures r.Ok? <==> host.homeDir.Done? && host.expand(host.homeDir.value).Done?
    ensures r.Ok? ==> r.value == host.expand(host.homeDir.value).value
    ensures host.homeDir.Failed? ==> r == Err(HomeDirFailed(host.homeDir.cause))
    ensures host.homeDir.Done? && r.Err? ==>
      r == Err(HomeExpandFailed(Some(host.expand(host.homeDir.value).cause)))
  {
    match host.homeDir
    case Failed(c) => Err(HomeDirFailed(c))
    case Done(home) =>
      match host.expand(home)
      case Failed(c) => Err(HomeExpandFailed(Some(c)))
      case Done(expanded) => Ok(expanded)
  }

  /** Corrected: different Expand failures give different errors. */
  lemma ExpandCauseKept(h1: Host, h2: Host)
    requires h1.homeDir.Done? && h2.homeDir.Done?
    requires h1.expand(h1.homeDir.value).Failed? && h2.expand(h2.homeDir.value).Failed?
    requires h1.expand(h1.homeDir.value).cause != h2.expand(h2.homeDir.value).cause
    ensures ResolveHome(h1).Err? && ResolveHome(h2).Err?
    ensures ResolveHome(h1) != ResolveHome(h2)
  {
  }

  /** The name and directory of a new application. */
  datatype Target = Target(name: string, dir: string)

  /**
   * The name and directory newKfApp derives from the requested name: the last
   * element of the request, placed in the request's directory, or in the home
   * directory when that directory is exactly "~".
   */
  function Placement(requested: string, host: Host): (r: Result<Target, Error>)
    ensures r.Ok? ==> r.value.name == GoPath.Base(requested) && r.value.name != ""
    ensures r.Err? ==> GoPath.Dir(requested) == "~" && ResolveHome(host).Err?
    ensures GoPath.Dir(requested) == "~" && ResolveHome(host).Err? ==> r == Err(ResolveHome(host).error)
  {
    var dir := GoPath.Dir(requested);
    var name := GoPath.Base(requested);
    if dir == "~" then
      match ResolveHome(host)
      case Err(e) => Err(e)
      case Ok(home) => Ok(Target(name, GoPath.Join(home, name)))
    else
      Ok(Target(name, GoPath.Join(dir, name)))
  }

  /** Whether newKfApp gets past name validation for this request. */
  predicate Admitted(requested: string, host: Host)
  {
    var t := Placement(requested, host);
    t.Ok? && Slug.IsSlug(t.value.name)
  }

  /** "~/foo" names foo inside the home directory. */
  lemma HomeRelativePlacement(e: string, host: Host)
    requires GoPath.Ordinary(e) && ResolveHome(host).Ok?
    ensures Placement("~/" + e, host) == Ok(Target(e, GoPath.Child(GoPath.Clean(ResolveHome(host).value), e)))
  {
    GoPath.HomeShorthand(e);
    GoPath.JoinOrdinary(ResolveHome(host).value, e);
  }

  /** A bare name stays a relative directory of the same name; no working directory is consulted. */
  lemma BareNamePlacement(e: string, host: Host)
    requires GoPath.Ordinary(e)
    ensures Placement(e, host) == Ok(Target(e, e))
  {
    GoPath.BareName(e);
  }

  /**
   * A request d/n with a clean parent d other than "~" names n and places it
   * at Join(d, n), which is n directly inside d; the host is not consulted.
   */
  lemma RequestInCleanDir(d: string, n: string, host: Host)
    requires GoPath.Clean(d) == d && d != "~" && GoPath.Ordinary(n)
    ensures Placement(d + "/" + n, host) == Ok(Target(n, GoPath.Join(d, n)))
    ensures GoPath.Join(d, n) == GoPath.Child(d, n)
  {
    var p := d + "/" + n;
    GoPath.HalvesOfChild(d, n);
    assert GoPath.TrimTrailingSlashes(p) == p;
    assert GoPath.Base(p) == n;
    GoPath.CleanTrailingSlash(d);
    assert GoPath.Dir(p) == d;
    GoPath.JoinOrdinary(d, n);
  }

  /** Outside the "~" case the placement does not depend on the host at all. */
  lemma PlacementIgnoresHost(requested: string, h1: Host, h2: Host)
    requires GoPath.Dir(requested) != "~"
    ensures Placement(requested, h1) == Placement(requested, h2)
  {
  }

  /** The directory of an admitted application has the application's name as its last element. */
  lemma CreatedDirNamesApp(requested: string, host: Host)
    requires Admitted(requested, host)
    ensures GoPath.Base(Placement(requested, host).value.dir) == Placement(requested, host).value.name
  {
    var t := Placement(requested, host).value;
    Slug.SlugShape(t.name);
    var parent := if GoPath.Dir(requested) == "~" then ResolveHome(host).value else GoPath.Dir(requested);
    GoPath.JoinOrdinary(parent, t.name);
    GoPath.BaseOfChild(GoPath.Clean(parent), t.name);
  }

  /**
   * The caller's view of loadPlatform's result: the handle passes through
   * unchanged, and an error is wrapped with the platform name, keeping the
   * original error inside.
   */
  function WrapPlatform(platform: string, r: Result<KfApp, Error>): (w: Result<KfApp, Error>)
    ensures w.Ok? <==> r.Ok?
    ensures w.Ok? ==> w.value == r.value
    ensures w.Err? ==> w.error.PlatformLoadFailed? && w.error.platform == platform && w.error.inner == r.error
  {
    match r
    case Ok(app) => Ok(app)
    case Err(e) => Err(PlatformLoadFailed(platform, e))
  }

  /**
   * newKfApp: derives and validates the application name, records the name
   * and directory in the options and resolves the platform. A rejected
   * request leaves the options as they were.
   */
  method NewKfApp(opts: Options, host: Host) returns (r: Result<KfApp, Error>)
    requires HasText(opts.entries, AppName)
    requires Admitted(opts.entries[AppName].s, host) ==> HasText(opts.entries, Platform)
    modifies opts
    ensures match Placement(old(opts.entries[AppName].s), host)
      case Err(e) =>
        r == Err(e) && opts.entries == old(opts.entries)
      case Ok(t) =>
        if !Slug.IsSlug(t.name) then
          r == Err(InvalidName(t.name)) && opts.entries == old(opts.entries)
        else
          opts.entries == old(opts.entries)[AppName := Text(t.name)][AppDir := Text(t.dir)] &&
          r == WrapPlatform(old(PlatformOf(opts.entries)), LoadPlatform(opts.entries, host))
  {
    var appName := opts.entries[AppName].s;
    ghost var requested := appName;
    var appDir := GoPath.Dir(appName);
    if appDir == "" {
      // The working-directory branch: path.Dir never yields "", so it cannot run.
      match host.getwd
      case Failed(c) =>
        return Err(CwdFailed(c));
      case Done(cwd) =>
        appDir := cwd;
    } else if appDir == "~" {
      var home := ResolveHome(host);
      if home.Err? {
        return Err(home.error);
      }
      appName := GoPath.Base(appName);
      appDir := GoPath.Join(home.value, appName);
    } else {
      appName := GoPath.Base(appName);
      appDir := GoPath.Join(appDir, appName);
    }
    var validName := Slug.FindSlug(appName);
    if validName != appName {
      Slug.WholeMatch(appName);
      return Err(InvalidName(appName));
    }
    Slug.WholeMatch(appName);
    assert Admitted(requested, host);
    opts.entries := opts.entries[AppName := Text(appName)];
    opts.entries := opts.entries[AppDir := Text(appDir)];
    var platform := opts.entries[Platform].s;
    var loaded := LoadPlatform(opts.entries, host);
    if loaded.Err? {
      return Err(PlatformLoadFailed(platform, loaded.error));
    }
    return Ok(loaded.value);
  }

  // ---------------------------------------------------------------------------
  // loadKfApp
  // ---------------------------------------------------------------------------

  /** What loadKfApp gathers about an existing application before it writes anything. */
  datatype Loaded = Loaded(dir: string, name: string, kApp: KsonnetApp, ksApp: KsApp)

  /** The descriptor file: app.yaml directly inside the cleaned application directory. */
  function ConfigPath(dir: string): (r: string)
    ensures r == GoPath.Child(GoPath.Clean(dir), KfConfigFile)
    ensures GoPath.Base(r) == KfConfigFile
  {
    GoPath.JoinOrdinary(dir, KfConfigFile);
    GoPath.BaseOfChild(GoPath.Clean(dir), KfConfigFile);
    GoPath.Join(dir, KfConfigFile)
  }

  /** The ksonnet application directory: ks_app directly inside the cleaned application directory. */
  function KsDir(dir: string): (r: string)
    ensures r == GoPath.Child(GoPath.Clean(dir), KsName)
    ensures GoPath.Base(r) == KsName
  {
    GoPath.JoinOrdinary(dir, KsName);
    GoPath.BaseOfChild(GoPath.Clean(dir), KsName);
    GoPath.Join(dir, KsName)
  }

  /**
   * The steps of loadKfApp up to the descriptor: working directory, ksonnet
   * application, descriptor file, descriptor contents; the first failure ends
   * the pipeline.
   */
  function ReadApp(host: Host): (r: Result<Loaded, Error>)
    ensures r.Ok? ==> host.getwd == Done(r.value.dir) && r.value.name == GoPath.Base(r.value.dir)
    ensures r.Ok? ==> host.ksLoad(KsDir(r.value.dir)) == Done(r.value.kApp)
    ensures r.Ok? ==> (host.readFile(ConfigPath(r.value.dir)).Done? &&
      host.unmarshal(host.readFile(ConfigPath(r.value.dir)).value) == Done(r.value.ksApp))
    ensures r.Err? ==> r.error.CwdFailed? || r.error.KsAppLoadFailed? || r.error.DescriptorReadFailed? || r.error.DescriptorParseFailed?
    ensures r.Err? && r.error.CwdFailed? ==> host.getwd == Failed(r.error.cause)
    ensures r.Err? && r.error.KsAppLoadFailed? ==> (host.getwd.Done? &&
      r.error.appName == GoPath.Base(host.getwd.value) && host.ksLoad(KsDir(host.getwd.value)) == Failed(r.error.cause))
    ensures r.Err? && r.error.DescriptorReadFailed? ==> (host.getwd.Done? &&
      r.error.path == ConfigPath(host.getwd.value) && host.readFile(r.error.path) == Failed(r.error.cause))
    ensures r.Err? && r.error.DescriptorParseFailed? ==> (host.getwd.Done? && host.readFile(ConfigPath(host.getwd.value)).Done? &&
      host.unmarshal(host.readFile(ConfigPath(host.getwd.value)).value) == Failed(r.error.cause))
  {
    match host.getwd
    case Failed(c) => Err(CwdFailed(c))
    case Done(dir) =>
      var name := GoPath.Base(dir);
      match host.ksLoad(KsDir(dir))
      case Failed(c) => Err(KsAppLoadFailed(name, c))
      case Done(kApp) =>
        match host.readFile(ConfigPath(dir))
        case Failed(c) => Err(DescriptorReadFailed(ConfigPath(dir), c))
        case Done(data) =>
          match host.unmarshal(data)
          case Failed(c) => Err(DescriptorParseFailed(c))
          case Done(ksApp) => Ok(Loaded(dir, name, kApp, ksApp))
  }

  /** Step 1 succeeds: the working directory is known. */
  predicate CwdKnown(host: Host)
  {
    host.getwd.Done?
  }

  /** Steps 1-2 succeed: the ksonnet application loads. */
  predicate KsLoaded(host: Host)
  {
    CwdKnown(host) && host.ksLoad(KsDir(host.getwd.value)).Done?
  }

  /** Steps 1-3 succeed: the descriptor file is read. */
  predicate DescriptorRead(host: Host)
  {
    KsLoaded(host) && host.readFile(ConfigPath(host.getwd.value)).Done?
  }

  /** Steps 1-4 succeed: the descriptor parses. */
  predicate DescriptorParsed(host: Host)
  {
    DescriptorRead(host) && host.unmarshal(host.readFile(ConfigPath(host.getwd.value)).value).Done?
  }

  /**
   * loadKfApp fails at the first failing step, and the kind of error says
   * which step that was; an unreadable descriptor and a malformed one are
   * never confused.
   */
  lemma ReadAppFailsAtFirstStep(host: Host)
    ensures ReadApp(host).Ok? <==> DescriptorParsed(host)
    ensures ReadApp(host).Err? && ReadApp(host).error.CwdFailed? <==> !CwdKnown(host)
    ensures ReadApp(host).Err? && ReadApp(host).error.KsAppLoadFailed? <==> CwdKnown(host) && !KsLoaded(host)
    ensures ReadApp(host).Err? && ReadApp(host).error.DescriptorReadFailed? <==> KsLoaded(host) && !DescriptorRead(host)
    ensures ReadApp(host).Err? && ReadApp(host).error.DescriptorParseFailed? <==> DescriptorRead(host) && !DescriptorParsed(host)
  {
  }

  /**
   * loadKfApp: identifies the application from the working directory, reads
   * its descriptor, records platform, name, directory and both loaded objects
   * in the options and resolves the platform.
   */
  method LoadKfApp(opts: Options, host: Host) returns (r: Result<KfApp, Error>)
    modifies opts
    ensures match ReadApp(host)
      case Err(e) =>
        r == Err(e) && opts.entries == old(opts.entries)
      case Ok(a) =>
        opts.entries == old(opts.entries)[Platform := Text(a.ksApp.platform)][AppName := Text(a.name)]
          [AppDir := Text(a.dir)][KApp := KsonnetHandle(a.kApp)][KsAppKey := Descriptor(a.ksApp)] &&
        r == WrapPlatform(a.ksApp.platform, LoadPlatform(opts.entries, host))
  {
    if host.getwd.Failed? {
      return Err(CwdFailed(host.getwd.cause));
    }
    var appDir := host.getwd.value;
    var appName := GoPath.Base(appDir);
    var cfgFile := ConfigPath(appDir);
    var ksDir := KsDir(appDir);
    var kApp := host.ksLoad(ksDir);
    if kApp.Failed? {
      return Err(KsAppLoadFailed(appName, kApp.cause));
    }
    var dat := host.readFile(cfgFile);
    if dat.Failed? {
      return Err(DescriptorReadFailed(cfgFile, dat.cause));
    }
    var ksApp := host.unmarshal(dat.value);
    if ksApp.Failed? {
      return Err(DescriptorParseFailed(ksApp.cause));
    }
    opts.entries := opts.entries[Platform := Text(ksApp.value.platform)];
    opts.entries := opts.entries[AppName := Text(appName)];
    opts.entries := opts.entries[AppDir := Text(appDir)];
    opts.entries := opts.entries[KApp := KsonnetHandle(kApp.value)];
    opts.entries := opts.entries[KsAppKey := Descriptor(ksApp.value)];
    var loaded := LoadPlatform(opts.entries, host);
    if loaded.Err? {
      return Err(PlatformLoadFailed(ksApp.value.platform, loaded.error));
    }
    return Ok(loaded.value);
  }

  /**
   * What os.Getwd reports after entering directory dir from working
   * directory cwd: dir itself when it is absolute (the placement is already
   * clean), otherwise dir joined onto cwd.
   */
  function WorkingDirAfterEntering(cwd: string, dir: string): string
  {
    if dir != "" && dir[0] == '/' then dir else GoPath.Join(cwd, dir)
  }

  /** Entering a directory that holds element e as its last element, wherever from, leaves e as the last element of the working directory. */
  lemma EnteredChildKeepsName(cwd: string, c: string, e: string)
    requires GoPath.Ordinary(e)
    ensures GoPath.Base(WorkingDirAfterEntering(cwd, GoPath.Child(c, e))) == e
  {
    var d := GoPath.Child(c, e);
    if d != "" && d[0] == '/' {
      GoPath.BaseOfChild(c, e);
    } else {
      GoPath.BaseOfJoinChild(cwd, c, e);
    }
  }

  /**
   * Creating an application and then loading it from inside the directory it
   * was given yields the same name, whether that directory is absolute or
   * relative to where the command ran; for an absolute placement the loaded
   * directory is the placement itself.
   */
  lemma NewThenLoadSameName(requested: string, host: Host, cwd: string, later: Host)
    requires Admitted(requested, host)
    requires later.getwd == Done(WorkingDirAfterEntering(cwd, Placement(requested, host).value.dir))
    requires ReadApp(later).Ok?
    ensures ReadApp(later).value.name == Placement(requested, host).value.name
    ensures var dir := Placement(requested, host).value.dir;
      dir != "" && dir[0] == '/' ==> ReadApp(later).value.dir == dir
  {
    var t := Placement(requested, host).value;
    Slug.SlugShape(t.name);
    var parent := if GoPath.Dir(requested) == "~" then ResolveHome(host).value else GoPath.Dir(requested);
    GoPath.JoinOrdinary(parent, t.name);
    EnteredChildKeepsName(cwd, GoPath.Clean(parent), t.name);
  }
}

=== FILE: slug.dfy ===
/**
 * The application-name grammar checked by newKfApp, and the way the check is
 * written: a regular expression anchored at the end only, whose leftmost
 * match must be the whole name.
 */
module Slug {

  import opened GoStrings

  /** A character of the class [a-z0-9]. */
  predicate IsAlnum(c: char)
  {
    'a' <= c <= 'z' || '0' <= c <= '9'
  }

  /** [a-z0-9]([-a-z0-9]*[a-z0-9])? : alphanumerics and '-', alphanumeric at both ends. */
  predicate IsLabel(l: string)
  {
    |l| > 0 && IsAlnum(l[0]) && IsAlnum(l[|l| - 1]) &&
    forall i :: 0 <= i < |l| ==> IsAlnum(l[i]) || l[i] == '-'
  }

  /**
   * One or more labels separated by '.'; so a slug is never empty and starts
   * and ends with an alphanumeric character.
   */
  predicate IsSlug(s: string)
    ensures IsSlug(s) ==> s != "" && IsAlnum(s[0]) && IsAlnum(s[|s| - 1])
  {
    var labels := Split(s, '.');
    var ok := forall i :: 0 <= i < |labels| ==> IsLabel(labels[i]);
    if s == "" then ok
    else
      FirstLabel(s);
      LastLabel(s);
      ok
  }

  /** A slug is one ordinary path element: not empty, not "." or "..", no '/'. */
  lemma SlugShape(s: string)
    requires IsSlug(s)
    ensures s != ""
    ensures '/' !in s
    ensures s != "." && s != ".."
  {
    var labels := Split(s, '.');
    assert IsLabel(labels[0]);
    if s != "" {
      FirstLabel(s);
    }
    forall k | 0 <= k < |s| && s[k] != '.'
      ensures s[k] != '/'
    {
      SlashInSomeLabel(s, k);
      var i, j :| 0 <= i < |labels| && 0 <= j < |labels[i]| && labels[i][j] == s[k];
      assert IsLabel(labels[i]);
    }
  }

  /** The first label of a string that does not start with '.' starts with its first character. */
  lemma FirstLabel(s: string)
    requires s != ""
    ensures s[0] == '.' ==> Split(s, '.')[0] == ""
    ensures s[0] != '.' ==> Split(s, '.')[0] != "" && Split(s, '.')[0][0] == s[0]
  {
  }

  /** The last label of a non-empty string is empty when it ends in '.', and otherwise ends with its last character. */
  lemma {:induction false} LastLabel(s: string)
    requires s != ""
    ensures var p := Split(s, '.'); var l := p[|p| - 1];
      (s[|s| - 1] == '.' ==> l == "") && (s[|s| - 1] != '.' ==> l != "" && l[|l| - 1] == s[|s| - 1])
  {
    if |s| > 1 {
      var t := s[1..];
      LastLabel(t);
      assert t[|t| - 1] == s[|s| - 1];
      var rest := Split(t, '.');
      if t[0] == '.' {
        assert |rest| >= 2;
      } else {
        assert rest[0] != "";
      }
    }
  }

  /** Every character other than a separator lies in some label. */
  lemma {:induction false} SlashInSomeLabel(s: string, k: nat)
    requires k < |s| && s[k] != '.'
    ensures exists i, j :: 0 <= i < |Split(s, '.')| && 0 <= j < |Split(s, '.')[i]| && Split(s, '.')[i][j] == s[k]
  {
    var rest := Split(s[1..], '.');
    if k == 0 {
      assert Split(s, '.')[0][0] == s[0];
    } else {
      SlashInSomeLabel(s[1..], k - 1);
      var i, j :| 0 <= i < |rest| && 0 <= j < |rest[i]| && rest[i][j] == s[1..][k - 1];
      if s[0] == '.' {
        assert Split(s, '.')[i + 1] == rest[i];
      } else if i == 0 {
        assert Split(s, '.')[0] == [s[0]] + rest[0];
        assert Split(s, '.')[0][j + 1] == rest[0][j];
      } else {
        assert Split(s, '.')[i] == rest[i];
      }
    }
  }

  /**
   * The leftmost match, from position i on, of the expression at
   * root.go:115. Being anchored at the end only, a match starting at j covers
   * s[j..]; the leftmost one starts at the least such j, and when there is
   * none FindString yields "".
   */
  function FindFrom(s: string, i: nat): (m: string)
    ensures |m| <= |s|
    ensures m != "" ==> |m| + i <= |s|
    ensures m != "" ==> IsSlug(m) && m == s[|s| - |m|..]
    ensures forall j :: i <= j < |s| - |m| ==> !IsSlug(s[j..])
    decreases |s| - i
  {
    if i >= |s| then ""
    else if IsSlug(s[i..]) then s[i..]
    else FindFrom(s, i + 1)
  }

  /**
   * regexp.FindString of the name-validation expression on s: the longest
   * suffix of s that is a slug, or "" when no suffix is.
   */
  function FindSlug(s: string): (m: string)
    ensures |m| <= |s|
    ensures m != "" ==> IsSlug(m) && m == s[|s| - |m|..]
    ensures forall j :: 0 <= j < |s| - |m| ==> !IsSlug(s[j..])
  {
    FindFrom(s, 0)
  }

  /**
   * The comparison at root.go:116-117 accepts exactly the slugs, and the
   * empty string, for which FindString's "no match" is also "".
   */
  lemma {:induction false} WholeMatch(s: string)
    ensures FindSlug(s) == s <==> IsSlug(s) || s == ""
  {
    if s != "" && !IsSlug(s) {
      assert s[0..] == s;
      assert FindSlug(s) == FindFrom(s, 1);
    } else if s != "" {
      assert s[0..] == s;
    }
  }

  /** A string without '.' whose k-th character is outside the label alphabet, or whose first is not alphanumeric, is no slug. */
  lemma NotSlug(s: string, k: nat)
    requires '.' !in s && k < |s|
    requires !(IsAlnum(s[k]) || s[k] == '-') || (k == 0 && !IsAlnum(s[0]))
    ensures !IsSlug(s)
  {
    SplitWithoutSep(s, '.');
    assert Split(s, '.')[0] == s;
    assert !IsLabel(s);
  }

  /** Two labels joined by '.' form a slug. */
  lemma TwoLabels(a: string, b: string)
    requires IsLabel(a) && IsLabel(b)
    ensures IsSlug(a + ['.'] + b)
  {
    assert '.' !in a by {
      forall k | 0 <= k < |a| ensures a[k] != '.' { assert IsAlnum(a[k]) || a[k] == '-'; }
    }
    assert '.' !in b by {
      forall k | 0 <= k < |b| ensures b[k] != '.' { assert IsAlnum(b[k]) || b[k] == '-'; }
    }
    SplitAround(a, '.', b);
    SplitWithoutSep(a, '.');
    SplitWithoutSep(b, '.');
    assert Split(a + ['.'] + b, '.') == [a, b];
  }

  lemma MyAppV1IsSlug()
    ensures IsSlug("my-app.v1")
  {
    var a, b := "my-app", "v1";
    assert IsLabel(a) && IsLabel(b);
    TwoLabels(a, b);
    assert a + ['.'] + b == "my-app.v1";
  }

  /**
   * For "My_App" the leftmost match is its suffix "pp", so the whole-name
   * comparison rejects it.
   */
  lemma MyAppUnderscoreRejected()
    ensures FindSlug("My_App") == "pp"
    ensures !IsSlug("My_App")
  {
    var s := "My_App";
    NotSlug(s[0..], 0);
    NotSlug(s[1..], 1);
    NotSlug(s[2..], 0);
    NotSlug(s[3..], 0);
    SplitWithoutSep(s[4..], '.');
    assert s[4..] == "pp";
    assert IsSlug(s[4..]);
    assert FindSlug(s) == FindFrom(s, 1) == FindFrom(s, 2) == FindFrom(s, 3) == FindFrom(s, 4);
  }
}

=== FILE: wrappers.dfy ===
/** Small failure-carrying datatypes shared by the model. */
module Wrappers {

  /** An optional value (Go's nil-or-value error slots). */
  datatype Option<+T> = None | Some(value: T)

  /** The outcome of an operation of the model: a value or an error. */
  datatype Result<+T, +E> = Ok(value: T) | Err(error: E)

  /**
   * The outcome of a call into code outside the model (the operating system,
   * a library): a value, or a failure whose cause is kept as its message.
   */
  datatype Outcome<+T> = Done(value: T) | Failed(cause: string)
}
